=== FILE: README.md ===
# internal_chat_mcp adapter core, modelled in Dafny

internal_chat_mcp exposes a handful of chat tools (send a message, fetch unread
messages, wait for a message) to an agent protocol and forwards each call to a
separate chat backend over REST or a websocket. This project models the adapter
logic between the caller's arguments and the backend. All of it is pure functions
over immutable datatypes:

- **Tool service** (`internal_chat_mcp/services/tool_service.py`):
  - the tool registry, where the last registration of a name wins;
  - the three argument-normalisation steps of `execute_tool`: allow-listing by the
    input schema, serialising dicts passed for `"string"` fields, and moving a
    top-level `from_user` into `filters["user"]` for `GetUnreadMessages`;
  - the dispatch itself;
  - the response serialiser: `{}` for no content, the bare item for one item, an
    ordered list otherwise.
- **Wait for message**, both variants (`internal_chat_mcp/tools/wait_for_message.py`
  and the older `tools/wait_for_message.py`):
  - the message filter, modelled as a checked sequence of tests and also as an
    order-independent conjunction, with the two proved equal on every message that
    does not raise;
  - the receive loop, a recursive function over the outcomes of successive socket
    receives. It returns a match, a timeout or an error, and the first deciding
    event wins. Each receive has its own timeout and there is no overall deadline:
    a stream that keeps delivering frames the filter rejects, each within the
    timeout, keeps the tool waiting forever.
- **Send message** (`internal_chat_mcp/tools/send_message.py`):
  - the `@user` mention injection;
  - choosing the host and the user from the environment;
  - the status of the single outgoing frame.
- **Unread messages** (`internal_chat_mcp/tools/get_unread_messages.py`):
  - the REST URL;
  - the query parameters, each chosen by the truthiness of an input field;
  - mapping the backend's `messages` array to the output list.

  `tools/get_unread_messages.py` is byte-identical to this file, so one model
  serves both.

Modules: `Wrappers`, `Json` (JSON values and Python truthiness), `Text` (ASCII
lower-casing and the substring test), `Tools`, `Registry`, `Normaliser`,
`Dispatcher`, `Serialiser`, `Chat`, `WaitForMessage`, `LegacyWait`, `SendMessage`,
`UnreadMessages`.

Opaque collaborators are function-typed parameters. These are `json.dumps`,
`re.search` (with the `re.error` a pattern that does not compile raises), pydantic model construction, the tool executors, the websocket
connection and the HTTP GET. `os.environ` is an explicit `Env` record. A socket
session is either a refusal or a sequence of arrivals. Each arrival is a frame
that comes some delay after its receive starts. A receive times out when that
delay reaches the configured `timeout`, so every receive gets the full timeout. If
the arrivals run out, the next receive never completes, so the wait times out.

Where the documented behaviour and the code disagree, the model follows the code:
- `mention_only` in the wait filter is a bare `'@'` test, not a whole-token mention of
  the caller.
- The wait loop never reads `filter.user`; only `from_user` constrains the sender.
- The `from_user` relocation overwrites an existing `filters["user"]`.
- The relocation adds a `filters` key even when the tool's schema does not declare one.
  The current `GetUnreadMessages` schema has no `filters` field.
- Mention injection in the send tool uses a substring test, so `@al` counts as present
  in `@alice`.

## Model

| member | source | states |
|---|---|---|
| `Registry.Register` | internal_chat_mcp/services/tool_service.py:23-25 | registering adds exactly the tool's name to the registry and keeps every entry filed under its own tool's name |
| `Registry.RegisterAll` | internal_chat_mcp/services/tool_service.py:27-30 | registering a list keeps every entry filed under its own tool's name |
| `Registry.GetTool` | internal_chat_mcp/services/tool_service.py:32-36 | lookup succeeds iff the name is registered and then returns that entry, whose name is the one asked for; otherwise it fails with "Tool not found: <name>" |
| `Registry.RegisterThenGet` | internal_chat_mcp/services/tool_service.py:23-36 | after registering t, looking up t.name yields t, and every other name resolves exactly as before |
| `Registry.RegisterAllLastWins` | internal_chat_mcp/services/tool_service.py:27-30 | after registering a list, a name resolves to the last tool of that name in the list, or to its earlier entry if the list has none |
| `Normaliser.FilterArgs` | internal_chat_mcp/services/tool_service.py:56-59 | the kept keys are exactly the input keys that are schema properties, with their values unchanged |
| `Normaliser.SerializeDictFields` | internal_chat_mcp/services/tool_service.py:61-69 | a dict given for a "string"-typed field becomes dumps(dict); every other field is untouched; afterwards no "string" field holds a dict |
| `Normaliser.SerializeDictFieldsIdempotent` | internal_chat_mcp/services/tool_service.py:61-69 | a second serialisation pass changes nothing |
| `Normaliser.RelocateFromUser` | internal_chat_mcp/services/tool_service.py:71-83 | fires only for GetUnreadMessages when the original input has from_user; then filters["user"] is that value, overwriting any earlier user, the filter keys are the old ones plus "user" with the other values kept, and from_user is gone; a truthy non-dict filters value is left alone; no other key changes; otherwise the map is unchanged |
| `Normaliser.NormaliseKeys` | internal_chat_mcp/services/tool_service.py:56-83 | after normalisation only schema properties and possibly `filters` remain; without the relocation the keys are exactly the declared input keys; values other than `filters` change only where a dict was serialised |
| `Normaliser.NormaliseIgnoresUndeclared` | internal_chat_mcp/services/tool_service.py:56-83 | two inputs that agree on the declared fields (and on from_user where it is relocated) normalise identically |
| `Dispatcher.ExecuteTool` | internal_chat_mcp/services/tool_service.py:38-114 | an unknown name fails with "Tool not found"; a rejected input fails with the validator's message; otherwise the outcome is exactly what the tool did with the normalised input: its response, or its exception passed on as `Raised` |
| `Dispatcher.ExecuteIgnoresUndeclared` | internal_chat_mcp/services/tool_service.py:54-92 | undeclared arguments never change the outcome of a call |
| `Serialiser.ProcessContent` | internal_chat_mcp/services/tool_service.py:116-131 | a text item yields its text (null if missing), a json item with data yields the data; any other item yields its first truthy payload, text before data, else {}; the result is always the item's text, its data, {} or a missing text, and null only for a text item without text |
| `Serialiser.ProcessAll` | internal_chat_mcp/services/tool_service.py:152 | the processed list has the same length and order as the content |
| `Serialiser.SerializeResponse` | internal_chat_mcp/services/tool_service.py:133-152 | {} for no content, the processed single item for one item, an ordered list of processed items of the same length for two or more |
| `Serialiser.SerializeRoundTrip` | internal_chat_mcp/services/tool_service.py:144-152 | given the item count, the caller recovers every processed item in order |
| `Serialiser.SerializeListIffMany` | internal_chat_mcp/services/tool_service.py:144-152 | the caller receives a list exactly when there were two or more items |
| `Serialiser.EmptyResponseIsAmbiguous` | internal_chat_mcp/services/tool_service.py:125-152 | no content and one non-text item without text or data both reach the caller as {} |
| `WaitForMessage.Check` | internal_chat_mcp/tools/wait_for_message.py:74-88 | on every message it does not raise on, the checks accept exactly when the conjunction of the set constraints holds (sender equality, '@' present, regex found, channel in list with missing channel as "general", no channel for dm_only); it raises exactly when the sender test passes and either mention_only meets a null text, or the mention test passes and a set regex fails to compile or meets a null text, and the raised text is the TypeError wording or the compile error; usable text with a compiling pattern never raises |
| `WaitForMessage.DefaultFilterAcceptsAll` | internal_chat_mcp/tools/wait_for_message.py:11-21 | the default MessageFilter() (used when filters is absent) accepts every message |
| `WaitForMessage.UnreadFieldsIgnored` | internal_chat_mcp/tools/wait_for_message.py:74-88 | user, before, after, sort and limit never affect acceptance |
| `WaitForMessage.UserFieldIsNotASenderFilter` | internal_chat_mcp/tools/wait_for_message.py:74-75 | a filter naming a user only through `user` accepts a message from someone else |
| `WaitForMessage.Listen` | internal_chat_mcp/tools/wait_for_message.py:68-98 | a match is an accepted message from the stream; an error comes from a failed receive or a message whose check raised; a timeout comes from a timed-out receive or a stream where no event decided |
| `WaitForMessage.ListenFirstDecision` | internal_chat_mcp/tools/wait_for_message.py:68-103 | the result is what the first deciding event decides (accepted message, timeout, failure), and a timeout if none decides |
| `WaitForMessage.ListenDecidedAt` | internal_chat_mcp/tools/wait_for_message.py:68-106 | conversely, every result is a timeout after an undecided stream or the decision of the first deciding event |
| `WaitForMessage.ListenReports` | internal_chat_mcp/tools/wait_for_message.py:63-106 | listening on the events received from a stream's arrivals reports in terms of the arrivals themselves: the first deciding one, its delay within the timeout, its frame and the filter's verdict on it |
| `WaitForMessage.FirstMatchWins` | internal_chat_mcp/tools/wait_for_message.py:68-98 | after any number of rejected messages the first accepted message is returned, whatever follows |
| `WaitForMessage.Receive` | internal_chat_mcp/tools/wait_for_message.py:69-72 | a receive times out iff its frame takes at least the full timeout; otherwise a decoded frame gives exactly that message and a broken frame a failure with its error text |
| `WaitForMessage.ToOutput` | internal_chat_mcp/tools/wait_for_message.py:90-106 | status is success/timeout/error by outcome; id and timestamp are null; a match copies user, message and channel; a timeout carries the fixed detail; an error carries its exception text; a timeout or an error leaves user, message and channel null |
| `WaitForMessage.RunWait` | internal_chat_mcp/tools/wait_for_message.py:63-106 | never raises: the status is always success, timeout or error; a refused connection is an error with its text; on an open stream, success reports the first deciding arrival, which came within the timeout, decoded, and was accepted, with null id and timestamp; a timeout means no earlier arrival decided and the next receive ran out of time or the stream ended; an error is the text of the first deciding arrival's broken frame or raised check |
| `WaitForMessage.Execute` | internal_chat_mcp/tools/wait_for_message.py:62-106 | the same report for the stream opened at ws://host/ws/team, with the given filter or the default filter when none is given |
| `WaitForMessage.DefaultInputTakesFirst` | internal_chat_mcp/tools/wait_for_message.py:24-36 | with only the team given, the tool listens at ws://host.docker.internal:8000/ws/team and returns the first frame when it arrives within 30 seconds and decodes |
| `WaitForMessage.PerReceiveTimeout` | internal_chat_mcp/tools/wait_for_message.py:68-71 | if every frame up to an accepted one arrives within the timeout of its own receive, that message is returned, however long the skipped ones took in total |
| `WaitForMessage.SlowStreamStillMatches` | internal_chat_mcp/tools/wait_for_message.py:69-71 | with a 30 s timeout, a skipped message after 20 s and a match 20 s later still match: the timeout is per receive, not cumulative |
| `WaitForMessage.SilenceTimesOut` | internal_chat_mcp/tools/wait_for_message.py:99-103 | a receive that takes at least the timeout ends the wait with a timeout, whatever would have come later |
| `LegacyWait.LegacyDefaultsAcceptAll` | tools/wait_for_message.py:10-27 | with the declared defaults (mention_only false, no sender, no regex) every message is accepted |
| `LegacyWait.AsFilter` | tools/wait_for_message.py:61-87 | this variant's filter has no channel or dm_only constraint |
| `LegacyWait.LegacyCheckIsFilter` | tools/wait_for_message.py:66-78 | the older sender/mention_only/content_regex checks equal the newer filter restricted to those fields, and for usable text accept exactly when each set constraint holds |
| `LegacyWait.LegacyIgnoresChannel` | tools/wait_for_message.py:61-87 | a message's channel never changes the verdict |
| `LegacyWait.LegacyExecute` | tools/wait_for_message.py:56-95 | the same report for the stream opened at ws://host/ws/team with the three-field filter; a success is the first deciding arrival and the older checks accept it, with null id and timestamp |
| `LegacyWait.UnconstrainedTakesFirst` | tools/wait_for_message.py:61-87 | with no sender, mention or regex constraint the first message received in time is returned |
| `SendMessage.InjectMention` | internal_chat_mcp/tools/send_message.py:48-54 | no reply_to_user leaves the text unchanged; an already present mention (case-insensitive substring) leaves it unchanged; otherwise the text is "@user " + message; the result always contains the mention and ends with the original message |
| `SendMessage.InjectIdempotent` | internal_chat_mcp/tools/send_message.py:49-54 | injecting twice gives the same text as injecting once |
| `SendMessage.MentionIsSubstringTest` | internal_chat_mcp/tools/send_message.py:52-53 | replying to "al" leaves "hi @Alice" unchanged: the test is a substring test |
| `SendMessage.Execute` | internal_chat_mcp/tools/send_message.py:43-65 | one frame goes to ws://host/ws/team. The host is BACKEND_HOST when set, even when empty, else the input host. The frame carries the input user when non-empty, else INTERNAL_CHAT_USER (possibly absent), and the possibly prefixed text. Status is success iff connecting and sending do not raise, otherwise error with the exception text |
| `SendMessage.EnvironmentAsInput` | internal_chat_mcp/tools/send_message.py:44-47 | a set BACKEND_HOST acts exactly like passing that host with the variable unset, and a non-empty input user makes INTERNAL_CHAT_USER irrelevant |
| `UnreadMessages.BuildQuery` | internal_chat_mcp/tools/get_unread_messages.py:59-71 | since_message_id present iff not null (0 included); sender and content_regex iff non-empty; limit iff non-zero; mention_only and dm_only only when true, as "true"; no other keys |
| `UnreadMessages.QueryRoundTrip` | tools/get_unread_messages.py:59-71 | reading the query back recovers the input up to the falsy values it cannot tell apart |
| `UnreadMessages.DefaultQuery` | tools/get_unread_messages.py:17-23 | with default inputs the query is exactly limit=20 |
| `UnreadMessages.DecodeAll` | internal_chat_mcp/tools/get_unread_messages.py:76 | success iff every item is a mapping that validates, and then the list has the same length and order; otherwise the error names the first item that is not a mapping or does not validate |
| `UnreadMessages.Unpack` | internal_chat_mcp/tools/get_unread_messages.py:76 | `**m` on something that is not a mapping never yields a message; on a mapping the result is the validation's |
| `UnreadMessages.MapReply` | internal_chat_mcp/tools/get_unread_messages.py:72-77 | a transport or status failure is raised; a body that is not an object fails; a missing messages key gives an empty list; an array is decoded item by item; an empty object or string gives an empty list and a non-empty one fails at element 0, since its keys or characters are not mappings; any other value is not iterable and fails; a success lists exactly the array's messages in order |
| `UnreadMessages.Execute` | internal_chat_mcp/tools/get_unread_messages.py:57-78 | the reply to the GET at http://host/api/team/team/messages with the built query, mapped as MapReply maps it; a failure of the GET is raised; success needs an object reply |

## Left out

- `register_mcp_handlers` (tool_service.py 154-194): it generates Python source and runs it with `exec`.
- The post-response delay of `WaitForMessage` in `execute_tool`: it only sleeps and appends to a log file, and the response is returned unchanged.
- The `hasattr(filters, "user")` branch of the relocation: a JSON argument value never has attributes, so it is never taken for caller input.
- The caller's `filters` dict is mutated in place by the relocation: the model is value-based and only the normalised map is observable.
- Websocket and HTTP I/O, `raise_for_status`, `asyncio.wait_for` timing and connection close. They are abstracted as sessions, arrivals, fetch results and failure texts.
- Regular expressions, JSON encoding and decoding, and pydantic validation and coercion are function parameters.
- `ToolResponse.from_model` and the tool interface: `internal_chat_mcp/interfaces/tool.py` is not part of this model. Tool outputs are modelled as their output records.
- Frames whose `user`, `message` or `channel` is a JSON value other than a string or null: the receive that decodes them is modelled as a failure.
- `Text.Lower`: lower-cases ASCII letters only, because Unicode case mapping is not modelled.
- Logging: the `logging` calls of `execute_tool` and the debug `print` of the send tool are left out, as they are effects only and change no result.
- `WaitForMessage.Check`: the `TypeError` texts for a null message are the CPython 3.12 wording; other CPython releases word them differently (before 3.12 the `re.search` text lacks ", got 'NoneType'").
- `UnreadMessages.BuildQuery`: the parameters are a map, so the insertion order of the query string is not modelled.
- The server modules, `models.py`, `get_recent_messages.py`, `get_version.py`, `tools/send_message.py` and the `__init__.py` files: they contain bootstrap, an ORM schema and thin pass-through wrappers.
- `test_get_unread_messages.py`: it imports names that the shown unread-messages tool does not define.
- Concurrency and cancellation of tool invocations.

=== FILE: chat.dfy ===
/** Chat messages as they arrive on the team's websocket, and the socket address. */
module Chat {
  import opened Wrappers

  /** How one key of a decoded frame is present: absent, JSON `null`, or a string. */
  datatype Slot = Absent | NullValue | Given(s: string)

  /** A decoded inbound frame. `id` and `timestamp` are never read by the tools. */
  datatype ChatMessage = ChatMessage(user: Slot, message: Slot, channel: Slot)

  /** `msg.get(key)`: absent and `null` both read as `None`. */
  function Read(s: Slot): (r: Option<string>)
    ensures r.Some? <==> s.Given?
    ensures r.Some? ==> r.value == s.s
  {
    match s
    case Given(t) => Some(t)
    case _ => None
  }

  /** `msg.get(key, default)`: only an absent key reads as `default`. */
  function ReadOr(s: Slot, default: string): (r: Option<string>)
    ensures s.Absent? ==> r == Some(default)
    ensures s.NullValue? ==> r.None?
    ensures s.Given? ==> r == Some(s.s)
  {
    match s
    case Absent => Some(default)
    case NullValue => None
    case Given(t) => Some(t)
  }

  /** `ws://{host}/ws/{team_id}`. */
  function WsUrl(host: string, teamId: string): string {
    "ws://" + host + "/ws/" + teamId
  }
}

=== FILE: dispatcher.dfy ===
/** `execute_tool`: look the tool up, normalise the arguments, build the input model,
    run the tool and hand its response back unchanged. */
module Dispatcher {
  import opened Wrappers
  import opened Json
  import opened Tools
  import opened Registry
  import opened Normaliser

  /** Why `execute_tool` raises: an unknown name, input the tool's model rejects,
      or an exception from the tool's own `execute`, which propagates unchanged. */
  datatype ToolError = NotFound(message: string) | Invalid(detail: string) | Raised(detail: string)

  /** Pydantic construction of the tool's input model: `Some(message)` when it raises. */
  type Validator = (Tool, Args) -> Option<string>

  /** The tool's own `execute` on an accepted input: its response, or the detail
      of the exception it raises. */
  type Executor = (Tool, Args) -> Result<ToolResponse, string>

  /** The modelled `execute_tool`. The post-response delay of the wait tool only
      sleeps and logs, so it does not appear. */
  function ExecuteTool(reg: Registry, name: string, input: Args, dumps: Value -> string,
                       validate: Validator, run: Executor): (r: Result<ToolResponse, ToolError>)
    ensures name !in reg <==> r == Failure(NotFound("Tool not found: " + name))
    ensures name in reg && validate(reg[name], Normalise(name, input, reg[name].schema, dumps)).Some? ==>
      r == Failure(Invalid(validate(reg[name], Normalise(name, input, reg[name].schema, dumps)).value))
    ensures r.Failure? && r.error.Invalid? ==>
      name in reg && validate(reg[name], Normalise(name, input, reg[name].schema, dumps)) == Some(r.error.detail)
    // past lookup and validation, the outcome is exactly what the tool did with the
    // normalised input: its response, or its exception
    ensures r.Success? || r.error.Raised? ==>
      && name in reg
      && validate(reg[name], Normalise(name, input, reg[name].schema, dumps)).None?
    ensures name in reg && validate(reg[name], Normalise(name, input, reg[name].schema, dumps)).None? ==>
      && (r.Success? <==> run(reg[name], Normalise(name, input, reg[name].schema, dumps)).Success?)
      && (r.Success? ==> r.value == run(reg[name], Normalise(name, input, reg[name].schema, dumps)).value)
      && (r.Failure? ==> r == Failure(Raised(run(reg[name], Normalise(name, input, reg[name].schema, dumps)).error)))
  {
    match GetTool(reg, name)
    case Failure(msg) => Failure(NotFound(msg))
    case Success(tool) =>
      var args := Normalise(name, input, tool.schema, dumps);
      match validate(tool, args)
      case Some(e) => Failure(Invalid(e))
      case None =>
        match run(tool, args)
        case Failure(e) => Failure(Raised(e))
        case Success(resp) => Success(resp)
  }

  /** Callers may pass undeclared keyword arguments freely: two calls that agree on
      the declared fields (and, for the relocating tool, on `from_user`) behave alike. */
  lemma ExecuteIgnoresUndeclared(reg: Registry, name: string, a: Args, b: Args, dumps: Value -> string,
                                 validate: Validator, run: Executor)
    requires name in reg
    requires forall k :: k in reg[name].schema ==> (k in a <==> k in b)
    requires forall k :: k in reg[name].schema && k in a ==> a[k] == b[k]
    requires Relocates(name, a) <==> Relocates(name, b)
    requires Relocates(name, a) ==> a["from_user"] == b["from_user"]
    ensures ExecuteTool(reg, name, a, dumps, validate, run) == ExecuteTool(reg, name, b, dumps, validate, run)
  {
    NormaliseIgnoresUndeclared(name, a, b, reg[name].schema, dumps);
  }
}

=== FILE: json.dfy ===
/** JSON-like values as Python's `json` module and tool callers produce them. */
module Json {
  import opened Wrappers

  /** A decoded JSON value. `Obj` is a Python dict with string keys. */
  datatype Value =
    | Null
    | Bool(b: bool)
    | Int(i: int)
    | Real(r: real)
    | Str(s: string)
    | Arr(items: seq<Value>)
    | Obj(fields: map<string, Value>)

  /** An argument map: keyword arguments handed to a tool. */
  type Args = map<string, Value>

  /** Python truthiness of a value (`bool(v)`). */
  predicate Truthy(v: Value) {
    match v
    case Null => false
    case Bool(b) => b
    case Int(i) => i != 0
    case Real(r) => r != 0.0
    case Str(s) => |s| > 0
    case Arr(xs) => |xs| > 0
    case Obj(m) => |m| > 0
  }

  /** A string that is present and non-empty: truthiness of `Optional[str]`. */
  predicate HasText(o: Option<string>) {
    o.Some? && |o.value| > 0
  }

  /** Truthiness of `Optional[bool]`. */
  predicate IsTrue(o: Option<bool>) {
    o == Some(true)
  }
}

=== FILE: legacy_wait.dfy ===
/** The older wait-for-message tool: the same receive loop with a filter made of
    `sender`, `mention_only` and `content_regex`, and no channel constraint. */
module LegacyWait {
  import opened Wrappers
  import opened Json
  import opened Chat
  import opened WaitForMessage

  /** The older `WaitForMessageInput`. */
  datatype LegacyInput = LegacyInput(
    teamId: string, backendHost: string,
    sender: Option<string>, mentionOnly: Option<bool>, contentRegex: Option<string>,
    timeout: int)

  /** The input with only the required team set. */
  function DefaultLegacyInput(teamId: string): LegacyInput {
    LegacyInput(teamId, "localhost:8000", None, Some(false), None, 30)
  }

  /** With the declared defaults (`mention_only` false, no sender, no regex) every
      message is accepted. */
  lemma LegacyDefaultsAcceptAll(teamId: string, m: ChatMessage, search: Search)
    ensures LegacyCheck(DefaultLegacyInput(teamId), m, search) == Accept
  {
  }

  /** The three checks of this variant in the order the older `execute` applies them. */
  function LegacyCheck(input: LegacyInput, m: ChatMessage, search: Search): Verdict {
    if HasText(input.sender) && Read(m.user) != Some(input.sender.value) then Reject
    else if IsTrue(input.mentionOnly) && Body(m).None? then Raise(MentionOnNull)
    else if IsTrue(input.mentionOnly) && '@' !in Body(m).value then Reject
    else if HasText(input.contentRegex) && search.compileError(input.contentRegex.value).Some? then
      Raise(search.compileError(input.contentRegex.value).value)
    else if HasText(input.contentRegex) && Body(m).None? then Raise(RegexOnNull)
    else if HasText(input.contentRegex) && !search.matches(input.contentRegex.value, Body(m).value) then Reject
    else Accept
  }

  /** The filter this variant amounts to: `sender` plays the part of `from_user`. */
  function AsFilter(input: LegacyInput): (f: MessageFilter)
    ensures !NonEmpty(f.channels) && !IsTrue(f.dmOnly)
  {
    DefaultFilter.(fromUser := input.sender, mentionOnly := input.mentionOnly, contentRegex := input.contentRegex)
  }

  /** The older checks are the newer filter restricted to three fields, so with
      message they do not raise on they are the conjunction of the set constraints. */
  lemma LegacyCheckIsFilter(input: LegacyInput, m: ChatMessage, search: Search)
    ensures LegacyCheck(input, m, search) == Check(AsFilter(input), m, search)
    ensures !LegacyCheck(input, m, search).Raise? ==>
      (LegacyCheck(input, m, search) == Accept <==>
        && (HasText(input.sender) ==> m.user == Given(input.sender.value))
        && (IsTrue(input.mentionOnly) ==> '@' in Body(m).GetOr(""))
        && (HasText(input.contentRegex) ==> search.matches(input.contentRegex.value, Body(m).GetOr(""))))
  {
  }

  /** No channel-based filtering: a message's channel never changes the verdict. */
  lemma LegacyIgnoresChannel(input: LegacyInput, m: ChatMessage, c: Slot, search: Search)
    ensures LegacyCheck(input, m.(channel := c), search) == LegacyCheck(input, m, search)
  {
  }

  /** The older `WaitForMessageTool.execute`: the shared loop with this variant's
      filter, so a success reports the first arrival the older checks accept. */
  function LegacyExecute(input: LegacyInput, connect: string -> Session, search: Search): (o: WaitOutput)
    ensures Reports(o, AsFilter(input), input.timeout,
                    connect("ws://" + input.backendHost + "/ws/" + input.teamId), search)
    ensures o.status == "success" ==>
      && o.id.None? && o.timestamp.None?
      && connect("ws://" + input.backendHost + "/ws/" + input.teamId).Open?
      && var arrivals := connect("ws://" + input.backendHost + "/ws/" + input.teamId).arrivals;
         exists i :: MatchedAt(AsFilter(input), input.timeout, arrivals, i, search)
                  && LegacyCheck(input, arrivals[i].frame.m, search) == Accept
                  && o == ToOutput(Matched(arrivals[i].frame.m))
  {
    assert forall m :: LegacyCheck(input, m, search) == Check(AsFilter(input), m, search);
    RunWait(WsUrl(input.backendHost, input.teamId), AsFilter(input), input.timeout, connect, search)
  }

  /** With no constraint set, the first message received in time is the result. */
  lemma UnconstrainedTakesFirst(input: LegacyInput, first: ChatMessage, delay: Duration,
                                 rest: seq<Arrival>, search: Search)
    requires !HasText(input.sender) && !IsTrue(input.mentionOnly) && !HasText(input.contentRegex)
    requires delay < input.timeout as real
    ensures Listen(AsFilter(input), ReceiveAll(input.timeout, [Arrival(delay, Decoded(first))] + rest), search)
         == Matched(first)
  {
  }
}

=== FILE: normaliser.dfy ===
/** The three argument-normalisation steps `execute_tool` applies before building a
    tool's input model: allow-listing, dict-to-JSON coercion, and the `from_user`
    relocation of the unread-messages tool. */
module Normaliser {
  import opened Wrappers
  import opened Json
  import opened Tools

  /** The one tool the `from_user` relocation applies to. */
  const RelocatingTool := "GetUnreadMessages"

  /** Step 1: keep only the keys that are properties of the schema. */
  function FilterArgs(input: Args, schema: Schema): (r: Args)
    ensures r.Keys == input.Keys * schema.Keys
    ensures forall k :: k in r ==> r[k] == input[k]
  {
    map k | k in input && k in schema :: input[k]
  }

  /** Whether step 2 rewrites field `k`: it is declared `"string"` and holds a dict. */
  predicate NeedsDump(args: Args, schema: Schema, k: string) {
    k in args && k in schema && schema[k] == TString && args[k].Obj?
  }

  /** Step 2: a dict supplied for a `"string"`-typed field is replaced by its JSON text
      `dumps(dict)`; every other field is left as it is. */
  function SerializeDictFields(args: Args, schema: Schema, dumps: Value -> string): (r: Args)
    ensures r.Keys == args.Keys
    ensures forall k :: k in r && NeedsDump(args, schema, k) ==> r[k] == Str(dumps(args[k]))
    ensures forall k :: k in r && !NeedsDump(args, schema, k) ==> r[k] == args[k]
    // afterwards no `"string"`-typed field holds a dict
    ensures forall k :: !NeedsDump(r, schema, k)
  {
    map k | k in args :: if NeedsDump(args, schema, k) then Str(dumps(args[k])) else args[k]
  }

  /** Step 2 is idempotent: a second pass finds nothing left to serialise. */
  lemma SerializeDictFieldsIdempotent(args: Args, schema: Schema, dumps: Value -> string)
    ensures SerializeDictFields(SerializeDictFields(args, schema, dumps), schema, dumps)
         == SerializeDictFields(args, schema, dumps)
  {
  }

  /** Whether step 3 fires: the tool is the unread-messages tool and the ORIGINAL
      input (before allow-listing) carries a top-level `from_user`. */
  predicate Relocates(toolName: string, input: Args) {
    toolName == RelocatingTool && "from_user" in input
  }

  /** The filters object step 3 starts from: `args.get("filters") or {}`. */
  function CurrentFilters(args: Args): Value {
    if "filters" in args && Truthy(args["filters"]) then args["filters"] else Obj(map[])
  }

  /** Step 3: move `input["from_user"]` into `filters["user"]`, overwriting any user
      already there, and drop a top-level `from_user`. A filters value that is truthy
      but not a dict is left alone. */
  function RelocateFromUser(toolName: string, input: Args, args: Args): (r: Args)
    ensures !Relocates(toolName, input) ==> r == args
    ensures Relocates(toolName, input) ==> "from_user" !in r
    ensures Relocates(toolName, input) && CurrentFilters(args).Obj? ==>
      && "filters" in r && r["filters"].Obj?
      && "user" in r["filters"].fields
      && r["filters"].fields["user"] == input["from_user"]
      && r["filters"].fields.Keys == CurrentFilters(args).fields.Keys + {"user"}
      && (forall k :: k in CurrentFilters(args).fields && k != "user" ==>
            k in r["filters"].fields && r["filters"].fields[k] == CurrentFilters(args).fields[k])
    ensures Relocates(toolName, input) && !CurrentFilters(args).Obj? ==>
      "filters" in r && r["filters"] == args["filters"]
    // no other key is touched
    ensures forall k :: k in args && k != "filters" && k != "from_user" ==> k in r && r[k] == args[k]
    ensures forall k :: k in r ==> k in args || k == "filters"
  {
    if !Relocates(toolName, input) then args
    else
      var filters := CurrentFilters(args);
      var placed := if filters.Obj? then args["filters" := Obj(filters.fields["user" := input["from_user"]])] else args;
      placed - {"from_user"}
  }

  /** The whole normalisation of `execute_tool` (its allow-listing, dict-serialising and relocation steps). */
  function Normalise(toolName: string, input: Args, schema: Schema, dumps: Value -> string): Args {
    RelocateFromUser(toolName, input, SerializeDictFields(FilterArgs(input, schema), schema, dumps))
  }

  /** What survives normalisation: only schema properties, plus `filters` when the
      relocation fires; without the relocation the keys are exactly the declared
      input keys, their values unchanged unless a dict was serialised. */
  lemma NormaliseKeys(toolName: string, input: Args, schema: Schema, dumps: Value -> string)
    ensures var r := Normalise(toolName, input, schema, dumps);
      && (forall k :: k in r ==> k in schema || k == "filters")
      && (!Relocates(toolName, input) ==> r.Keys == input.Keys * schema.Keys)
      && (Relocates(toolName, input) ==> "from_user" !in r)
      && (forall k :: k in r && k in input && k != "filters" && !(k in schema && schema[k] == TString && input[k].Obj?)
            ==> r[k] == input[k])
  {
  }

  /** Fields the schema does not declare never influence the result, except for the
      top-level `from_user` the relocation reads from the original input. */
  lemma NormaliseIgnoresUndeclared(toolName: string, a: Args, b: Args, schema: Schema, dumps: Value -> string)
    requires forall k :: k in schema ==> (k in a <==> k in b)
    requires forall k :: k in schema && k in a ==> a[k] == b[k]
    requires Relocates(toolName, a) <==> Relocates(toolName, b)
    requires Relocates(toolName, a) ==> a["from_user"] == b["from_user"]
    ensures Normalise(toolName, a, schema, dumps) == Normalise(toolName, b, schema, dumps)
  {
    assert FilterArgs(a, schema) == FilterArgs(b, schema);
  }
}

=== FILE: registry.dfy ===
/** The tool registry of the tool service: a name-to-tool map where the last registration wins. */
module Registry {
  import opened Wrappers
  import opened Tools

  type Registry = map<string, Tool>

  /** Every entry is filed under its own tool's name. */
  predicate WellKeyed(reg: Registry) {
    forall n :: n in reg ==> reg[n].name == n
  }

  /** `register_tool`: file `t` under its name, replacing any earlier tool of that name. */
  function Register(reg: Registry, t: Tool): (r: Registry)
    ensures r.Keys == reg.Keys + {t.name}
    ensures WellKeyed(reg) ==> WellKeyed(r)
  {
    reg[t.name := t]
  }

  /** `register_tools`: register each tool in list order. */
  function RegisterAll(reg: Registry, ts: seq<Tool>): (r: Registry)
    ensures WellKeyed(reg) ==> WellKeyed(r)
    decreases |ts|
  {
    if |ts| == 0 then reg else RegisterAll(Register(reg, ts[0]), ts[1..])
  }

  /** The message of the `ValueError` raised for an unknown tool name. */
  function NotFoundMessage(name: string): string {
    "Tool not found: " + name
  }

  /** `get_tool`: the tool filed under `name`, or the not-found error. */
  function GetTool(reg: Registry, name: string): (r: Result<Tool, string>)
    ensures r.Success? <==> name in reg
    ensures r.Success? ==> r.value == reg[name]
    ensures r.Success? && WellKeyed(reg) ==> r.value.name == name
    ensures r.Failure? ==> r.error == NotFoundMessage(name)
  {
    if name !in reg then Failure(NotFoundMessage(name)) else Success(reg[name])
  }

  /** Reference definition: the last tool in `ts` called `name`, if any. */
  function LastNamed(ts: seq<Tool>, name: string): (r: Option<Tool>)
    ensures r.Some? ==> r.value in ts && r.value.name == name
    ensures r.None? <==> forall i :: 0 <= i < |ts| ==> ts[i].name != name
    decreases |ts|
  {
    if |ts| == 0 then None
    else if ts[|ts| - 1].name == name then Some(ts[|ts| - 1])
    else LastNamed(ts[..|ts| - 1], name)
  }

  /** After registering `t`, looking up its name yields `t`; every other name is
      looked up exactly as before. */
  lemma RegisterThenGet(reg: Registry, t: Tool, name: string)
    ensures GetTool(Register(reg, t), t.name) == Success(t)
    ensures name != t.name ==> GetTool(Register(reg, t), name) == GetTool(reg, name)
  {
  }

  /** Registering `t0` and then `rest` makes a name's last holder either the last
      tool of that name in `rest` or, failing that, `t0` when it has that name. */
  lemma {:induction false} LastNamedCons(t0: Tool, rest: seq<Tool>, name: string)
    ensures LastNamed([t0] + rest, name) ==
      (if LastNamed(rest, name).Some? then LastNamed(rest, name)
       else if t0.name == name then Some(t0) else None)
    decreases |rest|
  {
    var ts := [t0] + rest;
    if |rest| == 0 {
      assert ts == [t0];
    } else {
      assert ts[..|ts| - 1] == [t0] + rest[..|rest| - 1];
      assert ts[|ts| - 1] == rest[|rest| - 1];
      LastNamedCons(t0, rest[..|rest| - 1], name);
    }
  }

  /** Last registration wins: after `register_tools(ts)` a name resolves to the last
      tool of that name in `ts`, and to its earlier entry when `ts` has none. */
  lemma {:induction false} RegisterAllLastWins(reg: Registry, ts: seq<Tool>, name: string)
    ensures GetTool(RegisterAll(reg, ts), name) ==
      (if LastNamed(ts, name).Some? then Success(LastNamed(ts, name).value) else GetTool(reg, name))
    decreases |ts|
  {
    if |ts| > 0 {
      RegisterAllLastWins(Register(reg, ts[0]), ts[1..], name);
      assert ts == [ts[0]] + ts[1..];
      LastNamedCons(ts[0], ts[1..], name);
    }
  }
}

=== FILE: send_message.dfy ===
/** The send-message tool: mention injection, host and user selection, and the status
    of the one outgoing frame. */
module SendMessage {
  import opened Wrappers
  import opened Json
  import opened Text
  import opened Chat

  /** `SendMessageInput`. */
  datatype SendInput = SendInput(teamId: string, user: string, message: string,
                                 backendHost: string, replyToUser: Option<string>)

  /** The environment the tool reads: `BACKEND_HOST` and `INTERNAL_CHAT_USER`. */
  datatype Env = Env(backendHost: Option<string>, chatUser: Option<string>)

  /** The JSON frame sent: `{"user": ..., "message": ...}`; a missing user is `null`. */
  datatype OutFrame = OutFrame(user: Option<string>, message: string)

  /** `SendMessageOutput`. */
  datatype SendOutput = SendOutput(status: string, detail: Option<string>)

  /** `@name`. */
  function Mention(name: string): string {
    "@" + name
  }

  /** Whether `message` already mentions `name`, case-insensitively. This is a
      substring test, not a whole-token test. */
  predicate Mentions(message: string, name: string) {
    Contains(Lower(message), Lower(Mention(name)))
  }

  /** The outgoing text: prefix `@reply_to_user ` unless the mention is already there. */
  function InjectMention(message: string, replyTo: Option<string>): (r: string)
    ensures !HasText(replyTo) ==> r == message
    ensures HasText(replyTo) && Mentions(message, replyTo.value) ==> r == message
    ensures HasText(replyTo) && !Mentions(message, replyTo.value) ==> r == Mention(replyTo.value) + " " + message
    // the mention is always present afterwards, and the message is kept as a suffix
    ensures HasText(replyTo) ==> Mentions(r, replyTo.value)
    ensures EndsWith(r, message)
  {
    var reply := replyTo.GetOr("");
    if |reply| > 0 && !Mentions(message, reply) then
      var r := Mention(reply) + " " + message;
      LowerAppend(Mention(reply), " " + message);
      ContainsPrefix(Lower(Mention(reply)), Lower(" " + message));
      assert r[|r| - |message|..] == message;
      r
    else
      assert message[|message| - |message|..] == message;
      message
  }

  /** Injecting twice is injecting once. */
  lemma InjectIdempotent(message: string, replyTo: Option<string>)
    ensures InjectMention(InjectMention(message, replyTo), replyTo) == InjectMention(message, replyTo)
  {
  }

  /** The test is a substring test: replying to `al` leaves a message that mentions
      `@Alice` untouched, although `@al` is not a mention of its own there. */
  lemma MentionIsSubstringTest()
    ensures InjectMention("hi @Alice", Some("al")) == "hi @Alice"
  {
    assert Lower("hi @Alice") == "hi @alice";
    assert Contains("hi @alice"[3..], "@al");
  }

  /** `os.environ.get("BACKEND_HOST", input.backend_host)`: a set variable wins, even when empty. */
  function EffectiveHost(env: Env, input: SendInput): string {
    env.backendHost.GetOr(input.backendHost)
  }

  /** `input.user or os.environ.get("INTERNAL_CHAT_USER")`. */
  function EffectiveUser(env: Env, input: SendInput): Option<string> {
    if |input.user| > 0 then Some(input.user) else env.chatUser
  }

  /** The one frame the tool sends. */
  function Frame(env: Env, input: SendInput): OutFrame {
    OutFrame(EffectiveUser(env, input), InjectMention(input.message, input.replyToUser))
  }

  /** Connecting to `url` and sending `frame`: `Some(str(e))` when either raises. */
  type Deliver = (string, OutFrame) -> Option<string>

  /** `SendMessageTool.execute`: "success" when connect and send do not raise,
      otherwise "error" with the exception text. */
  function Execute(env: Env, input: SendInput, deliver: Deliver): (o: SendOutput)
    ensures var host := if env.backendHost.Some? then env.backendHost.value else input.backendHost;
      var user := if |input.user| > 0 then Some(input.user) else env.chatUser;
      var sent := deliver("ws://" + host + "/ws/" + input.teamId, OutFrame(user, InjectMention(input.message, input.replyToUser)));
      && (o.status == "success" <==> sent.None?)
      && (o.status == "success" ==> o.detail.None?)
      && (o.status != "success" ==> o.status == "error" && o.detail == sent)
  {
    match deliver(WsUrl(EffectiveHost(env, input), input.teamId), Frame(env, input))
    case None => SendOutput("success", None)
    case Some(e) => SendOutput("error", Some(e))
  }

  /** Setting `BACKEND_HOST` is the same as passing that host in the input with the
      variable unset, and a non-empty input user makes `INTERNAL_CHAT_USER` irrelevant. */
  lemma EnvironmentAsInput(env: Env, input: SendInput, deliver: Deliver)
    ensures env.backendHost.Some? ==>
      Execute(env, input, deliver) == Execute(env.(backendHost := None), input.(backendHost := env.backendHost.value), deliver)
    ensures |input.user| > 0 ==>
      Execute(env, input, deliver) == Execute(env.(chatUser := None), input, deliver)
  {
  }
}

=== FILE: serialiser.dfy ===
/** `_process_tool_content` and `_serialize_response`: collapsing a tool response into
    the value returned to the caller. */
module Serialiser {
  import opened Wrappers
  import opened Json
  import opened Tools

  /** The empty JSON object `{}`. */
  const EmptyObject := Obj(map[])

  /** Python's `a or b` on an optional text and an optional dict: the first truthy
      of `text`, `json_data`, `{}`. */
  function Fallback(c: ToolContent): Value {
    if c.text.Some? && |c.text.value| > 0 then Str(c.text.value)
    else if c.jsonData.Some? && |c.jsonData.value| > 0 then Obj(c.jsonData.value)
    else EmptyObject
  }

  /** `_process_tool_content`: the item's payload according to its type. */
  function ProcessContent(c: ToolContent): (r: Value)
    // never invents data: the result is the text, the dict, `{}`, or a text item's missing text
    ensures || (c.text.Some? && r == Str(c.text.value))
            || (c.jsonData.Some? && r == Obj(c.jsonData.value))
            || r == EmptyObject
            || (c.kind == "text" && c.text.None? && r == Null)
    ensures c.kind == "text" ==> r == (if c.text.Some? then Str(c.text.value) else Null)
    ensures c.kind == "json" && c.jsonData.Some? ==> r == Obj(c.jsonData.value)
    // any other item yields its first truthy payload, text before data, else `{}`
    ensures c.kind != "text" && !(c.kind == "json" && c.jsonData.Some?) ==>
      r == (if c.text.Some? && |c.text.value| > 0 then Str(c.text.value)
            else if c.jsonData.Some? && |c.jsonData.value| > 0 then Obj(c.jsonData.value)
            else EmptyObject)
    // only a text item can yield null
    ensures r == Null ==> c.kind == "text" && c.text.None?
  {
    if c.kind == "text" then (if c.text.Some? then Str(c.text.value) else Null)
    else if c.kind == "json" && c.jsonData.Some? then Obj(c.jsonData.value)
    else Fallback(c)
  }

  /** The list comprehension `[process(c) for c in content]`. */
  function ProcessAll(cs: seq<ToolContent>): (r: seq<Value>)
    ensures |r| == |cs|
    ensures forall i :: 0 <= i < |cs| ==> r[i] == ProcessContent(cs[i])
    decreases |cs|
  {
    if |cs| == 0 then [] else [ProcessContent(cs[0])] + ProcessAll(cs[1..])
  }

  /** `_serialize_response`: `{}` for no content, the bare processed item for one,
      the ordered list of processed items for two or more. */
  function SerializeResponse(resp: ToolResponse): (r: Value)
    ensures |resp.content| == 0 ==> r == EmptyObject
    ensures |resp.content| == 1 ==> r == ProcessContent(resp.content[0])
    ensures |resp.content| >= 2 ==>
      && r.Arr? && |r.items| == |resp.content|
      && forall i :: 0 <= i < |resp.content| ==> r.items[i] == ProcessContent(resp.content[i])
  {
    if |resp.content| == 0 then EmptyObject
    else if |resp.content| == 1 then ProcessContent(resp.content[0])
    else Arr(ProcessAll(resp.content))
  }

  /** The caller's inverse of the serialiser, given the number of content items. */
  function Unwrap(wire: Value, n: nat): seq<Value> {
    if n == 0 then []
    else if n == 1 then [wire]
    else if wire.Arr? then wire.items
    else []
  }

  /** Round trip: knowing how many items there were, the caller recovers every
      processed item, in order. */
  lemma SerializeRoundTrip(resp: ToolResponse)
    ensures Unwrap(SerializeResponse(resp), |resp.content|) == ProcessAll(resp.content)
  {
  }

  /** A list reaches the caller exactly when the response had two or more items:
      no single item's payload is itself a list. */
  lemma SerializeListIffMany(resp: ToolResponse)
    ensures SerializeResponse(resp).Arr? <==> |resp.content| >= 2
  {
  }

  /** The item count is still needed to tell "no content" apart from one non-text
      item that carries neither text nor data: both reach the caller as `{}`. */
  lemma EmptyResponseIsAmbiguous(kind: string)
    requires kind != "text"
    ensures SerializeResponse(ToolResponse([])) == EmptyObject
    ensures SerializeResponse(ToolResponse([ToolContent(kind, None, None)])) == EmptyObject
  {
  }
}

=== FILE: text.dfy ===
/** String helpers with the meaning Python gives them on ASCII text. */
module Text {

  /** `c.lower()` for one character, on the ASCII range only. */
  function LowerChar(c: char): char {
    if 'A' <= c <= 'Z' then (c as int + 32) as char else c
  }

  /** `s.lower()`, ASCII only: every upper-case letter is mapped, nothing else moves. */
  function Lower(s: string): (r: string)
    ensures |r| == |s|
    ensures forall i :: 0 <= i < |s| ==> r[i] == LowerChar(s[i])
  {
    seq(|s|, i requires 0 <= i < |s| => LowerChar(s[i]))
  }

  /** Python's substring test `t in s`. */
  predicate Contains(s: string, t: string)
    decreases |s|
  {
    |t| <= |s| && (s[..|t|] == t || (|s| > 0 && Contains(s[1..], t)))
  }

  /** `s.endswith(t)`. */
  predicate EndsWith(s: string, t: string) {
    |t| <= |s| && s[|s| - |t|..] == t
  }

  /** Lower-casing distributes over concatenation. */
  lemma LowerAppend(a: string, b: string)
    ensures Lower(a + b) == Lower(a) + Lower(b)
  {
  }

  /** Every string contains each of its prefixes. */
  lemma ContainsPrefix(t: string, rest: string)
    ensures Contains(t + rest, t)
  {
  }
}

=== FILE: tools.dfy ===
/** The records the tool service passes around: tool definitions, input schemas, responses. */
module Tools {
  import opened Wrappers
  import opened Json

  /** The `"type"` entry of one property in a pydantic JSON schema. `NoType` is a
      property without a `"type"` key, which is what pydantic emits for
      `Optional[...]` fields (an `anyOf`) and nested models (a `$ref`). */
  datatype TypeTag = TString | TInteger | TNumber | TBoolean | TObject | TArray | NoType

  /** The `"properties"` of a tool's input schema: field name to declared type. */
  type Schema = map<string, TypeTag>

  /** A registered tool. Its executor is not data; the dispatcher receives it as a parameter. */
  datatype Tool = Tool(name: string, description: string, schema: Schema)

  /** One content item of a tool response: `type`, optional `text`, optional `json_data`. */
  datatype ToolContent = ToolContent(kind: string, text: Option<string>, jsonData: Option<map<string, Value>>)

  /** A tool's response: its ordered content items. */
  datatype ToolResponse = ToolResponse(content: seq<ToolContent>)
}

=== FILE: unread_messages.dfy ===
/** The unread-messages tool: the REST URL, the query parameters chosen by the
    truthiness of each input field, and the mapping of the backend's reply. */
module UnreadMessages {
  import opened Wrappers
  import opened Json

  /** `GetUnreadMessagesInput`. */
  datatype UnreadInput = UnreadInput(
    teamId: string,
    backendHost: string,
    sinceMessageId: Option<int>,
    sender: Option<string>,
    limit: int,
    mentionOnly: Option<bool>,
    dmOnly: Option<bool>,
    contentRegex: Option<string>)

  /** The input with only the required team set. */
  function DefaultInput(teamId: string): UnreadInput {
    UnreadInput(teamId, "localhost:8000", None, None, 20, Some(false), Some(false), None)
  }

  /** A query parameter value as handed to the HTTP client. */
  datatype Param = PInt(i: int) | PStr(s: string)

  /** The parameter dict. */
  type Query = map<string, Param>

  /** The six parameter names the source may set. */
  const ParamNames := {"since_message_id", "sender", "limit", "mention_only", "dm_only", "content_regex"}

  /** `http://{backend_host}/api/team/{team_id}/messages`. */
  function MessagesUrl(host: string, teamId: string): string {
    "http://" + host + "/api/team/" + teamId + "/messages"
  }

  /** `if cond: params[name] = value`. */
  function AddIf(q: Query, cond: bool, name: string, value: Param): Query {
    if cond then q[name := value] else q
  }

  /** The parameter dict built by `execute` before its GET. */
  function BuildQuery(input: UnreadInput): (q: Query)
    ensures "since_message_id" in q <==> input.sinceMessageId.Some?
    ensures "since_message_id" in q ==> q["since_message_id"] == PInt(input.sinceMessageId.value)
    ensures "sender" in q <==> HasText(input.sender)
    ensures "sender" in q ==> q["sender"] == PStr(input.sender.value)
    ensures "limit" in q <==> input.limit != 0
    ensures "limit" in q ==> q["limit"] == PInt(input.limit)
    ensures "mention_only" in q <==> IsTrue(input.mentionOnly)
    ensures "mention_only" in q ==> q["mention_only"] == PStr("true")
    ensures "dm_only" in q <==> IsTrue(input.dmOnly)
    ensures "dm_only" in q ==> q["dm_only"] == PStr("true")
    ensures "content_regex" in q <==> HasText(input.contentRegex)
    ensures "content_regex" in q ==> q["content_regex"] == PStr(input.contentRegex.value)
    // no other names
    ensures q.Keys <= ParamNames
  {
    var q0: Query := map[];
    var q1 := AddIf(q0, input.sinceMessageId.Some?, "since_message_id", PInt(input.sinceMessageId.GetOr(0)));
    var q2 := AddIf(q1, HasText(input.sender), "sender", PStr(input.sender.GetOr("")));
    var q3 := AddIf(q2, input.limit != 0, "limit", PInt(input.limit));
    var q4 := AddIf(q3, IsTrue(input.mentionOnly), "mention_only", PStr("true"));
    var q5 := AddIf(q4, IsTrue(input.dmOnly), "dm_only", PStr("true"));
    AddIf(q5, HasText(input.contentRegex), "content_regex", PStr(input.contentRegex.GetOr("")))
  }

  /** The input with every falsy field in its canonical falsy form: what the query
      can still tell apart. */
  function Canonical(input: UnreadInput): UnreadInput {
    input.(sender := if HasText(input.sender) then input.sender else None,
           mentionOnly := Some(IsTrue(input.mentionOnly)),
           dmOnly := Some(IsTrue(input.dmOnly)),
           contentRegex := if HasText(input.contentRegex) then input.contentRegex else None)
  }

  /** The integer under `name`, if any. */
  function IntParam(q: Query, name: string): Option<int> {
    if name in q && q[name].PInt? then Some(q[name].i) else None
  }

  /** The string under `name`, if any. */
  function StrParam(q: Query, name: string): Option<string> {
    if name in q && q[name].PStr? then Some(q[name].s) else None
  }

  /** Reads the filter fields back from a query; URL fields are supplied. */
  function ParseQuery(teamId: string, host: string, q: Query): UnreadInput {
    UnreadInput(
      teamId, host,
      IntParam(q, "since_message_id"),
      StrParam(q, "sender"),
      IntParam(q, "limit").GetOr(0),
      Some(StrParam(q, "mention_only") == Some("true")),
      Some(StrParam(q, "dm_only") == Some("true")),
      StrParam(q, "content_regex"))
  }

  /** Round trip: the query loses nothing but the difference between falsy values
      (`None` against `""` or `False`; a zero `limit` reads back as zero). */
  lemma QueryRoundTrip(input: UnreadInput)
    ensures ParseQuery(input.teamId, input.backendHost, BuildQuery(input)) == Canonical(input)
  {
  }

  /** By default the query is exactly `limit=20`. */
  lemma DefaultQuery(teamId: string)
    ensures BuildQuery(DefaultInput(teamId)) == map["limit" := PInt(20)]
  {
  }

  /** One message of the reply as the output model holds it. */
  datatype MessageModel = MessageModel(id: int, user: string, message: string, timestamp: string, channel: Option<string>)

  /** Why fetching raises: the transport or HTTP status failed, the reply is not an
      object, its `messages` is not a list, or an item fails validation. */
  datatype FetchError =
    | Transport(detail: string) | NotAnObject | NotIterable | InvalidMessage(index: nat)

  /** The backend's answer to the GET: a failure (`raise_for_status` included) or a JSON body. */
  datatype Reply = Unreachable(detail: string) | Body(data: Value)

  /** Pydantic's `MessageModel(**m)` on a mapping: `None` when validation raises. */
  type Decoder = map<string, Value> -> Option<MessageModel>

  /** `MessageModel(**m)` on any element: unpacking something that is not a mapping
      raises before validation starts. */
  function Unpack(v: Value, decode: Decoder): (r: Option<MessageModel>)
    ensures r.Some? ==> v.Obj? && decode(v.fields) == r
    ensures v.Obj? ==> r == decode(v.fields)
  {
    if v.Obj? then decode(v.fields) else None
  }

  /** `[MessageModel(**m) for m in items]`, raising at the first item that does not unpack. */
  function DecodeAll(items: seq<Value>, decode: Decoder): (r: Result<seq<MessageModel>, FetchError>)
    ensures r.Success? ==>
      |r.value| == |items| && forall i :: 0 <= i < |items| ==> Unpack(items[i], decode) == Some(r.value[i])
    ensures r.Success? <==> forall i :: 0 <= i < |items| ==> Unpack(items[i], decode).Some?
    ensures r.Failure? ==>
      && r.error.InvalidMessage? && r.error.index < |items|
      && Unpack(items[r.error.index], decode).None?
      && forall i :: 0 <= i < r.error.index ==> Unpack(items[i], decode).Some?
    decreases |items|
  {
    if |items| == 0 then Success([])
    else match Unpack(items[0], decode)
      case None => Failure(InvalidMessage(0))
      case Some(m) =>
        match DecodeAll(items[1..], decode)
        case Success(ms) => Success([m] + ms)
        case Failure(e) => Failure(InvalidMessage(e.index + 1))
  }

  /** How many elements iterating over `v` yields: the items of an array, the keys
      of an object, the characters of a string; `None` for what is not iterable. */
  function ElementCount(v: Value): (n: Option<nat>)
    ensures n.Some? <==> v.Arr? || v.Obj? || v.Str?
  {
    match v
    case Arr(items) => Some(|items|)
    case Obj(fields) => Some(|fields|)
    case Str(s) => Some(|s|)
    case _ => None
  }

  /** `data.get("messages", [])` mapped through the output model. Iterating over an
      object yields its keys and over a string its characters, none of which is a
      mapping, so those give an empty list when empty and fail at element 0 otherwise. */
  function MapReply(reply: Reply, decode: Decoder): (r: Result<seq<MessageModel>, FetchError>)
    ensures reply.Unreachable? ==> r == Failure(Transport(reply.detail))
    ensures reply.Body? && !reply.data.Obj? ==> r == Failure(NotAnObject)
    ensures reply.Body? && reply.data.Obj? && "messages" !in reply.data.fields ==> r == Success([])
    ensures reply.Body? && reply.data.Obj? && "messages" in reply.data.fields ==>
      var v := reply.data.fields["messages"];
      && (v.Arr? ==> r == DecodeAll(v.items, decode))
      && (ElementCount(v).None? ==> r == Failure(NotIterable))
      && (!v.Arr? && ElementCount(v) == Some(0) ==> r == Success([]))
      && (!v.Arr? && ElementCount(v).Some? && ElementCount(v).value > 0 ==> r == Failure(InvalidMessage(0)))
    // a successful reply lists exactly the messages of the array, item by item
    ensures r.Success? ==>
      && reply.Body? && reply.data.Obj?
      && (|r.value| == 0 || ("messages" in reply.data.fields && reply.data.fields["messages"].Arr?))
      && ("messages" in reply.data.fields && reply.data.fields["messages"].Arr? ==>
            var items := reply.data.fields["messages"].items;
            |r.value| == |items| && forall i :: 0 <= i < |items| ==> Unpack(items[i], decode) == Some(r.value[i]))
  {
    match reply
    case Unreachable(d) => Failure(Transport(d))
    case Body(data) =>
      if !data.Obj? then Failure(NotAnObject)
      else if "messages" !in data.fields then Success([])
      else
        var v := data.fields["messages"];
        if v.Arr? then DecodeAll(v.items, decode)
        else match ElementCount(v)
          case None => Failure(NotIterable)
          case Some(n) => if n == 0 then Success([]) else Failure(InvalidMessage(0))
  }

  /** The HTTP GET: given the URL and the query, the backend's reply. */
  type Fetch = (string, Query) -> Reply

  /** `GetUnreadMessagesTool.execute`. */
  function Execute(input: UnreadInput, fetch: Fetch, decode: Decoder): (r: Result<seq<MessageModel>, FetchError>)
    ensures r == MapReply(fetch(MessagesUrl(input.backendHost, input.teamId), BuildQuery(input)), decode)
    ensures var reply := fetch(MessagesUrl(input.backendHost, input.teamId), BuildQuery(input));
      && (reply.Unreachable? ==> r == Failure(Transport(reply.detail)))
      && (r.Success? ==> reply.Body? && reply.data.Obj?)
  {
    MapReply(fetch(MessagesUrl(input.backendHost, input.teamId), BuildQuery(input)), decode)
  }
}

=== FILE: wait_for_message.dfy ===
/** The wait-for-message tool: a filter predicate over incoming chat messages and the
    receive loop that returns the first accepted message, a timeout, or an error. */
module WaitForMessage {
  import opened Wrappers
  import opened Json
  import opened Chat

  /** `MessageFilter`: every field optional. Only `from_user`, `mention_only`,
      `content_regex`, `channels` and `dm_only` are read by the loop. */
  datatype MessageFilter = MessageFilter(
    user: Option<string>,
    channels: Option<seq<string>>,
    dmOnly: Option<bool>,
    mentionOnly: Option<bool>,
    contentRegex: Option<string>,
    fromUser: Option<string>,
    before: Option<string>,
    after: Option<string>,
    sort: Option<string>,
    limit: Option<int>)

  /** `MessageFilter()` with its declared defaults. */
  const DefaultFilter := MessageFilter(None, None, None, None, None, None, None, None, Some("asc"), Some(20))

  /** The channel name an absent `channel` key stands for. */
  const DefaultChannel := "general"

  /** `re.search(pattern, text)`, which regular expressions are not modelled for.
      `compileError(p)` is the text of the `re.error` raised when `p` does not
      compile; for a pattern that compiles, `matches(p, text)` says whether the
      pattern is found anywhere in `text`. */
  datatype Search = Search(compileError: string -> Option<string>, matches: (string, string) -> bool)

  /** The `TypeError` text of `"@" in None`, as CPython 3.12 words it. */
  const MentionOnNull := "argument of type 'NoneType' is not iterable"

  /** The `TypeError` text of `re.search(p, None)`, as CPython 3.12 words it. */
  const RegexOnNull := "expected string or bytes-like object, got 'NoneType'"

  /** The detail of a timeout result. */
  const TimeoutDetail := "No matching message received in time."

  /** What the filter makes of one message: keep it, skip it, or raise. */
  datatype Verdict = Accept | Reject | Raise(detail: string)

  predicate NonEmpty(channels: Option<seq<string>>) {
    channels.Some? && |channels.value| > 0
  }

  /** The text a message offers to the mention and regex tests: `msg.get("message", "")`. */
  function Body(m: ChatMessage): Option<string> {
    ReadOr(m.message, "")
  }

  /** Reference definition: the filter as an order-independent conjunction of the
      constraints that are set. */
  predicate Accepts(f: MessageFilter, m: ChatMessage, search: Search) {
    var text := Body(m).GetOr("");
    && (HasText(f.fromUser) ==> m.user == Given(f.fromUser.value))
    && (IsTrue(f.mentionOnly) ==> '@' in text)
    && (HasText(f.contentRegex) ==> search.matches(f.contentRegex.value, text))
    && (NonEmpty(f.channels) ==> ReadOr(m.channel, DefaultChannel).Some? && ReadOr(m.channel, DefaultChannel).value in f.channels.value)
    && (IsTrue(f.dmOnly) ==> !m.channel.Given?)
  }

  /** The sender test of the filter: `from_user`, when set, must equal the message's user. */
  predicate SenderOk(f: MessageFilter, m: ChatMessage) {
    HasText(f.fromUser) ==> m.user == Given(f.fromUser.value)
  }

  /** The filter checks in the order the loop applies them (the body of the receive loop in `WaitForMessageTool.execute`). A
      `null` message text makes the mention or regex test raise a `TypeError`, and a
      pattern that does not compile makes the regex test raise `re.error`. */
  function Check(f: MessageFilter, m: ChatMessage, search: Search): (v: Verdict)
    // whenever nothing raises, the checks are exactly the conjunction
    ensures !v.Raise? ==> (v == Accept <==> Accepts(f, m, search))
    // nothing raises on a usable text and a pattern that compiles
    ensures !m.message.NullValue? && (HasText(f.contentRegex) ==> search.compileError(f.contentRegex.value).None?)
            ==> !v.Raise?
    // when the checks raise, and with which text
    ensures v.Raise? <==>
      && SenderOk(f, m)
      && (|| (IsTrue(f.mentionOnly) && m.message.NullValue?)
          || (&& (IsTrue(f.mentionOnly) ==> '@' in Body(m).GetOr(""))
              && HasText(f.contentRegex)
              && (search.compileError(f.contentRegex.value).Some? || m.message.NullValue?)))
    ensures v.Raise? ==>
      v.detail == (if IsTrue(f.mentionOnly) && m.message.NullValue? then MentionOnNull
                   else if search.compileError(f.contentRegex.value).Some? then search.compileError(f.contentRegex.value).value
                   else RegexOnNull)
  {
    if HasText(f.fromUser) && Read(m.user) != Some(f.fromUser.value) then Reject
    else if IsTrue(f.mentionOnly) && Body(m).None? then Raise(MentionOnNull)
    else if IsTrue(f.mentionOnly) && '@' !in Body(m).value then Reject
    else if HasText(f.contentRegex) && search.compileError(f.contentRegex.value).Some? then
      Raise(search.compileError(f.contentRegex.value).value)
    else if HasText(f.contentRegex) && Body(m).None? then Raise(RegexOnNull)
    else if HasText(f.contentRegex) && !search.matches(f.contentRegex.value, Body(m).value) then Reject
    else if NonEmpty(f.channels) && (ReadOr(m.channel, DefaultChannel).None? || ReadOr(m.channel, DefaultChannel).value !in f.channels.value) then Reject
    else if IsTrue(f.dmOnly) && Read(m.channel).Some? then Reject
    else Accept
  }

  /** The default filter accepts every message. */
  lemma DefaultFilterAcceptsAll(m: ChatMessage, search: Search)
    ensures Check(DefaultFilter, m, search) == Accept
  {
  }

  /** `user`, `before`, `after`, `sort` and `limit` never affect acceptance. */
  lemma UnreadFieldsIgnored(f: MessageFilter, m: ChatMessage, search: Search,
                            user: Option<string>, before: Option<string>, after: Option<string>,
                            sort: Option<string>, limit: Option<int>)
    ensures Check(f.(user := user, before := before, after := after, sort := sort, limit := limit), m, search)
         == Check(f, m, search)
  {
  }

  /** `filter.user` is not `from_user`: a filter naming a user by `user` alone lets
      other senders through. */
  lemma UserFieldIsNotASenderFilter(u: string, other: string, search: Search)
    requires u != other
    ensures Check(DefaultFilter.(user := Some(u)), ChatMessage(Given(other), Given("hi"), Absent), search) == Accept
  {
  }

  /** The outcome of one receive: a decoded message, a receive that ran out of time,
      or a failure (closed connection, undecodable frame). */
  datatype Event = Msg(m: ChatMessage) | RecvTimeout | Fail(detail: string)

  /** The result of waiting. */
  datatype WaitResult = Matched(m: ChatMessage) | TimedOut | Errored(detail: string)

  /** What one event decides: `None` when the loop goes on to the next receive. */
  function Decide(f: MessageFilter, e: Event, search: Search): Option<WaitResult> {
    match e
    case RecvTimeout => Some(TimedOut)
    case Fail(d) => Some(Errored(d))
    case Msg(m) =>
      match Check(f, m, search)
      case Accept => Some(Matched(m))
      case Reject => None
      case Raise(d) => Some(Errored(d))
  }

  /** The receive loop over the events the socket produces. Running out of events
      means the next receive never completes, so it times out. */
  function Listen(f: MessageFilter, events: seq<Event>, search: Search): (r: WaitResult)
    ensures r.Matched? ==> Msg(r.m) in events && Check(f, r.m, search) == Accept
    ensures r.Errored? ==> Fail(r.detail) in events || exists m :: Msg(m) in events && Check(f, m, search) == Raise(r.detail)
    ensures r.TimedOut? ==> RecvTimeout in events || Undecided(f, events, |events|, search)
    decreases |events|
  {
    if |events| == 0 then TimedOut
    else match Decide(f, events[0], search)
      case Some(res) => res
      case None => Listen(f, events[1..], search)
  }

  /** The first `i` events all let the loop go on. */
  predicate Undecided(f: MessageFilter, events: seq<Event>, i: int, search: Search)
    requires 0 <= i <= |events|
  {
    forall j :: 0 <= j < i ==> Decide(f, events[j], search).None?
  }

  /** First decision wins: the loop's result is what the first deciding event
      decides, and a timeout if no event decides. */
  lemma {:induction false} ListenFirstDecision(f: MessageFilter, events: seq<Event>, i: int, search: Search)
    requires 0 <= i <= |events| && Undecided(f, events, i, search)
    ensures i < |events| && Decide(f, events[i], search).Some? ==>
      Listen(f, events, search) == Decide(f, events[i], search).value
    ensures i == |events| ==> Listen(f, events, search) == TimedOut
    decreases i
  {
    if i > 0 {
      assert Decide(f, events[0], search).None?;
      ListenFirstDecision(f, events[1..], i - 1, search);
    }
  }

  /** Conversely, the loop's result always comes from the first deciding event. */
  lemma {:induction false} ListenDecidedAt(f: MessageFilter, events: seq<Event>, search: Search)
    ensures var r := Listen(f, events, search);
      || (Undecided(f, events, |events|, search) && r == TimedOut)
      || exists i :: 0 <= i < |events| && Undecided(f, events, i, search) && Decide(f, events[i], search) == Some(r)
    decreases |events|
  {
    if |events| > 0 && Decide(f, events[0], search).None? {
      ListenDecidedAt(f, events[1..], search);
      var r := Listen(f, events[1..], search);
      if Undecided(f, events[1..], |events| - 1, search) && r == TimedOut {
        assert Undecided(f, events, |events|, search) by {
          forall j | 0 <= j < |events| ensures Decide(f, events[j], search).None? {
            if j > 0 { assert events[j] == events[1..][j - 1]; }
          }
        }
      } else {
        var i :| 0 <= i < |events| - 1 && Undecided(f, events[1..], i, search) && Decide(f, events[1..][i], search) == Some(r);
        assert Undecided(f, events, i + 1, search) by {
          forall j | 0 <= j < i + 1 ensures Decide(f, events[j], search).None? {
            if j > 0 { assert events[j] == events[1..][j - 1]; }
          }
        }
        assert Decide(f, events[i + 1], search) == Some(r);
      }
    } else if |events| > 0 {
      assert Undecided(f, events, 0, search);
    }
  }

  /** Skipping: a run of rejected messages followed by an accepted one yields that
      message, however many were skipped. */
  lemma FirstMatchWins(f: MessageFilter, skipped: seq<ChatMessage>, m: ChatMessage, rest: seq<Event>, search: Search)
    requires forall j :: 0 <= j < |skipped| ==> Check(f, skipped[j], search) == Reject
    requires Check(f, m, search) == Accept
    ensures Listen(f, seq(|skipped|, j requires 0 <= j < |skipped| => Msg(skipped[j])) + [Msg(m)] + rest, search) == Matched(m)
  {
    var events := seq(|skipped|, j requires 0 <= j < |skipped| => Msg(skipped[j])) + [Msg(m)] + rest;
    assert events[|skipped|] == Msg(m);
    assert forall j :: 0 <= j < |skipped| ==> events[j] == Msg(skipped[j]);
    ListenFirstDecision(f, events, |skipped|, search);
  }

  /** A silence of at least `delay` seconds, then a frame. */
  type Duration = r: real | r >= 0.0

  /** What the socket delivers to one receive. */
  datatype Frame = Decoded(m: ChatMessage) | Broken(detail: string)

  /** One receive: the frame arrives `delay` seconds after the receive starts. */
  datatype Arrival = Arrival(delay: Duration, frame: Frame)

  /** `asyncio.wait_for(websocket.recv(), timeout)` then `json.loads`: each receive
      gets the full configured timeout. */
  function Receive(timeout: int, a: Arrival): (e: Event)
    ensures e.RecvTimeout? <==> a.delay >= timeout as real
    ensures a.delay < timeout as real && a.frame.Decoded? ==> e == Msg(a.frame.m)
    ensures a.delay < timeout as real && a.frame.Broken? ==> e == Fail(a.frame.detail)
  {
    if a.delay >= timeout as real then RecvTimeout
    else match a.frame
      case Decoded(m) => Msg(m)
      case Broken(d) => Fail(d)
  }

  function ReceiveAll(timeout: int, arrivals: seq<Arrival>): (es: seq<Event>)
    ensures |es| == |arrivals|
    ensures forall i :: 0 <= i < |arrivals| ==> es[i] == Receive(timeout, arrivals[i])
  {
    seq(|arrivals|, i requires 0 <= i < |arrivals| => Receive(timeout, arrivals[i]))
  }

  /** What connecting to the socket gives: a refusal, or the stream of arrivals. */
  datatype Session = Refused(detail: string) | Open(arrivals: seq<Arrival>)

  /** `WaitForMessageOutput`. */
  datatype WaitOutput = WaitOutput(
    id: Option<int>, user: Option<string>, message: Option<string>,
    timestamp: Option<string>, channel: Option<string>,
    status: string, detail: Option<string>)

  /** The output record for a wait result. */
  function ToOutput(r: WaitResult): (o: WaitOutput)
    ensures o.id.None? && o.timestamp.None?
    ensures o.status == "success" <==> r.Matched?
    ensures o.status == "timeout" <==> r.TimedOut?
    ensures o.status == "error" <==> r.Errored?
    ensures r.Matched? ==>
      o.user == Read(r.m.user) && o.message == Read(r.m.message) && o.channel == Read(r.m.channel) && o.detail.None?
    ensures r.TimedOut? ==> o.detail == Some(TimeoutDetail)
    ensures r.Errored? ==> o.detail == Some(r.detail)
    // a timeout or an error carries no message fields
    ensures !r.Matched? ==> o.user.None? && o.message.None? && o.channel.None?
  {
    match r
    case Matched(m) => WaitOutput(None, Read(m.user), Read(m.message), None, Read(m.channel), "success", None)
    case TimedOut => WaitOutput(None, None, None, None, None, "timeout", Some(TimeoutDetail))
    case Errored(d) => WaitOutput(None, None, None, None, None, "error", Some(d))
  }

  /** Arrival `i` is the first that decides, and it is an accepted message that
      came within the timeout. */
  predicate MatchedAt(f: MessageFilter, timeout: int, arrivals: seq<Arrival>, i: int, search: Search) {
    && 0 <= i < |arrivals|
    && Undecided(f, ReceiveAll(timeout, arrivals), i, search)
    && arrivals[i].delay < timeout as real
    && arrivals[i].frame.Decoded?
    && Check(f, arrivals[i].frame.m, search) == Accept
  }

  /** No arrival before `i` decides, and receive `i` runs out of time (or the
      stream has nothing more to deliver). */
  predicate TimedOutAt(f: MessageFilter, timeout: int, arrivals: seq<Arrival>, i: int, search: Search) {
    && 0 <= i <= |arrivals|
    && Undecided(f, ReceiveAll(timeout, arrivals), i, search)
    && (i == |arrivals| || arrivals[i].delay >= timeout as real)
  }

  /** Arrival `i` is the first that decides, and it fails with `detail`: a broken
      frame, or a message whose checks raise. */
  predicate FailedAt(f: MessageFilter, timeout: int, arrivals: seq<Arrival>, i: int, detail: string, search: Search) {
    && 0 <= i < |arrivals|
    && Undecided(f, ReceiveAll(timeout, arrivals), i, search)
    && arrivals[i].delay < timeout as real
    && (|| arrivals[i].frame == Broken(detail)
        || (arrivals[i].frame.Decoded? && Check(f, arrivals[i].frame.m, search) == Raise(detail)))
  }

  /** `o` is what waiting on session `s` reports: the error of a refused connection,
      or the outcome decided by the first deciding arrival of an open one. */
  ghost predicate Reports(o: WaitOutput, f: MessageFilter, timeout: int, s: Session, search: Search) {
    && o.status in {"success", "timeout", "error"}
    && match s
       case Refused(d) => o == ToOutput(Errored(d))
       case Open(arrivals) =>
         && (o.status == "success" ==>
               exists i :: MatchedAt(f, timeout, arrivals, i, search) && o == ToOutput(Matched(arrivals[i].frame.m)))
         && (o.status == "timeout" ==>
               (exists i :: TimedOutAt(f, timeout, arrivals, i, search)) && o == ToOutput(TimedOut))
         && (o.status == "error" ==>
               o.detail.Some? && (exists i :: FailedAt(f, timeout, arrivals, i, o.detail.value, search))
               && o == ToOutput(Errored(o.detail.value)))
  }

  /** The loop's output on an open session is traced to the arrival that decided it. */
  lemma {:induction false} ListenReports(f: MessageFilter, timeout: int, arrivals: seq<Arrival>, search: Search)
    ensures Reports(ToOutput(Listen(f, ReceiveAll(timeout, arrivals), search)), f, timeout, Open(arrivals), search)
  {
    var es := ReceiveAll(timeout, arrivals);
    var r := Listen(f, es, search);
    ListenDecidedAt(f, es, search);
    if Undecided(f, es, |es|, search) && r == TimedOut {
      assert TimedOutAt(f, timeout, arrivals, |arrivals|, search);
    } else {
      var i :| 0 <= i < |es| && Undecided(f, es, i, search) && Decide(f, es[i], search) == Some(r);
      assert es[i] == Receive(timeout, arrivals[i]);
      match r
      case Matched(m) =>
        assert MatchedAt(f, timeout, arrivals, i, search);
      case TimedOut =>
        assert TimedOutAt(f, timeout, arrivals, i, search);
      case Errored(d) =>
        assert FailedAt(f, timeout, arrivals, i, d, search);
    }
  }

  /** Connect to `url` and wait with filter `f`; never raises. Shared by both
      variants of the tool. */
  function RunWait(url: string, f: MessageFilter, timeout: int, connect: string -> Session, search: Search): (o: WaitOutput)
    ensures Reports(o, f, timeout, connect(url), search)
    ensures o.status == "success" ==> o.id.None? && o.timestamp.None? && o.detail.None?
    ensures o.status == "timeout" ==> o.detail == Some(TimeoutDetail)
  {
    match connect(url)
    case Refused(d) => ToOutput(Errored(d))
    case Open(arrivals) =>
      ListenReports(f, timeout, arrivals, search);
      ToOutput(Listen(f, ReceiveAll(timeout, arrivals), search))
  }

  /** `WaitForMessageInput`. */
  datatype WaitInput = WaitInput(teamId: string, backendHost: string, filters: Option<MessageFilter>, timeout: int)

  /** The input with only the required team set. */
  function DefaultInput(teamId: string): WaitInput {
    WaitInput(teamId, "host.docker.internal:8000", None, 30)
  }

  /** `WaitForMessageTool.execute`: wait on `ws://{host}/ws/{team}` with the given
      filter, or `MessageFilter()` when none is given. */
  function Execute(input: WaitInput, connect: string -> Session, search: Search): (o: WaitOutput)
    ensures Reports(o, input.filters.GetOr(DefaultFilter), input.timeout,
                    connect("ws://" + input.backendHost + "/ws/" + input.teamId), search)
    ensures o.status == "success" ==> o.id.None? && o.timestamp.None? && o.detail.None?
    ensures o.status == "timeout" ==> o.detail == Some(TimeoutDetail)
  {
    RunWait(WsUrl(input.backendHost, input.teamId), input.filters.GetOr(DefaultFilter), input.timeout, connect, search)
  }

  /** Called with only the team, the tool listens on the default host and returns the
      first frame when it arrives within 30 seconds and decodes, whatever it says. */
  lemma DefaultInputTakesFirst(teamId: string, connect: string -> Session, search: Search,
                               m: ChatMessage, delay: Duration, rest: seq<Arrival>)
    requires connect("ws://host.docker.internal:8000/ws/" + teamId) == Open([Arrival(delay, Decoded(m))] + rest)
    requires delay < 30.0
    ensures Execute(DefaultInput(teamId), connect, search)
         == WaitOutput(None, Read(m.user), Read(m.message), None, Read(m.channel), "success", None)
  {
    var arrivals := [Arrival(delay, Decoded(m))] + rest;
    assert WsUrl("host.docker.internal:8000", teamId) == "ws://host.docker.internal:8000/ws/" + teamId;
    assert ReceiveAll(30, arrivals)[0] == Msg(m);
    DefaultFilterAcceptsAll(m, search);
    assert Listen(DefaultFilter, ReceiveAll(30, arrivals), search) == Matched(m);
  }

  /** Each receive gets the full timeout: however long the skipped messages took in
      total, a matching message is returned as long as every frame up to it arrived
      within the timeout of its own receive. */
  lemma PerReceiveTimeout(f: MessageFilter, timeout: int, arrivals: seq<Arrival>, i: int, search: Search)
    requires 0 <= i < |arrivals|
    requires forall j :: 0 <= j <= i ==> arrivals[j].delay < timeout as real && arrivals[j].frame.Decoded?
    requires forall j :: 0 <= j < i ==> Check(f, arrivals[j].frame.m, search) == Reject
    requires Check(f, arrivals[i].frame.m, search) == Accept
    ensures Listen(f, ReceiveAll(timeout, arrivals), search) == Matched(arrivals[i].frame.m)
  {
    var es := ReceiveAll(timeout, arrivals);
    assert Undecided(f, es, i, search) by {
      forall j | 0 <= j < i ensures Decide(f, es[j], search).None? {
        assert es[j] == Msg(arrivals[j].frame.m);
      }
    }
    ListenFirstDecision(f, es, i, search);
  }

  /** With a 30 s timeout, a skipped message after 20 s and a match 20 s later is a
      match although 40 s have passed. */
  lemma SlowStreamStillMatches(search: Search)
    ensures var f := DefaultFilter.(fromUser := Some("bob"));
      var bob := ChatMessage(Given("bob"), Given("hi"), Absent);
      var eve := ChatMessage(Given("eve"), Given("hi"), Absent);
      Listen(f, ReceiveAll(30, [Arrival(20.0, Decoded(eve)), Arrival(20.0, Decoded(bob))]), search) == Matched(bob)
  {
    var f := DefaultFilter.(fromUser := Some("bob"));
    var bob := ChatMessage(Given("bob"), Given("hi"), Absent);
    var eve := ChatMessage(Given("eve"), Given("hi"), Absent);
    var es := ReceiveAll(30, [Arrival(20.0, Decoded(eve)), Arrival(20.0, Decoded(bob))]);
    assert es[0] == Msg(eve) && es[1] == Msg(bob);
    assert es[1..] == [Msg(bob)];
  }

  /** A receive that outlasts the timeout ends the wait with a timeout, even if a
      matching message would have come later. */
  lemma SilenceTimesOut(f: MessageFilter, timeout: int, late: Arrival, rest: seq<Arrival>, search: Search)
    requires late.delay >= timeout as real
    ensures Listen(f, ReceiveAll(timeout, [late] + rest), search) == TimedOut
  {
  }
}

=== FILE: wrappers.dfy ===
/** Failure-compatible wrappers shared by every module of the model. */
module Wrappers {

  /** A value that may be absent: Python's `Optional[T]` with `None`. */
  datatype Option<+T> = None | Some(value: T) {

    /** The wrapped value, or `default` when absent. */
    function GetOr(default: T): T {
      match this
      case Some(v) => v
      case None => default
    }
  }

  /** The outcome of an operation that either returns a value or raises. */
  datatype Result<+T, +E> = Success(value: T) | Failure(error: E)
}
